=== FILE: README.md ===
# Facial-analysis report generator: a Dafny model of its deterministic core

The report generator turns a record of predicted facial attributes into an
HTML report. It has three steps:

1. A short summary sentence.
2. A content dict of six fields: four recommendation lists, a comment and a
   list of observations.
3. The filled-in HTML template.

The summary and the content come from a remote text model when one is
configured and answers. Otherwise they come from local rules. This project
models everything in that chain that does not depend on the remote model:

- `Fence`: unwrapping a markdown code fence from the model's reply.
- `Summary`: the local summary rules.
- `Content`: the local content rules.
- `Completion`: filling in the keys the reply lacks.
- `Report`: rendering lists, the attractiveness gate and filling the template.
- `Generation`: choosing between the remote result and the local one.

Support modules:

- `Json`: the parsed JSON values and Python's truthiness.
- `Text`: Python's `str.strip`, `str.join`, `startswith` and `endswith` on strings.
- `Results`: `Option` and `Result`.

Python exceptions are modelled as `Err` values of `Json.Exception`. The
modelled cases are an attribute or type error, a failed parse, and
`generate_html_report`'s `RuntimeError` that wraps the original error.

The remote model's reply is a parameter, `None` when the call raised.
`json.loads` is a parameter `parse`, `None` when parsing raised. The clock's
timestamp is a parameter. So is `showScore`, which stands for
`str(round(x, 2))`.

## Model

| member | source | states |
|---|---|---|
| Fence.CleanJsonResponse | backend/Gemini.py:471-484 | the cleaned reply has no surrounding whitespace and is never longer than the reply |
| Fence.CleanUnfenced | backend/Gemini.py:474-484 | a reply with no fence at either end is only whitespace-trimmed |
| Fence.CleanJsonFence | backend/Gemini.py:476-477 | a "```json" … "```" fence is removed and the body comes back stripped |
| Fence.CleanBareFence | backend/Gemini.py:478-482 | a bare "```" … "```" fence is removed the same way, for any body not starting with "json" (so "```jq```" cleans to "jq") |
| Fence.CleanJsonFenceLines | backend/Gemini.py:471-484 | the usual reply shape "```json\n" body "\n```" gives back the stripped body |
| Fence.CleanBareFenceLines | backend/Gemini.py:471-484 | the same for a bare "```\n" body "\n```" |
| Fence.UnfenceOneFence | backend/Gemini.py:476-482 | dropping the fences takes off nothing, a leading "```" or a leading "```json" in front, and nothing or a trailing "```" behind, for every text |
| Fence.CleanAtMostOneFence | backend/Gemini.py:474-484 | for every reply, the cleaned text is the stripped reply less at most one fence at each end, stripped again |
| Fence.CleanRemovesOneFence | backend/Gemini.py:476-482 | a "```json" fence nested inside another keeps its inner fence |
| Fence.CleanStripped | backend/Gemini.py:583-585 | stripping the reply before cleaning it, as generate_content does, changes nothing |
| Text.Strip | backend/Gemini.py:474 | Python's strip leaves no whitespace at either end and never lengthens its input |
| Text.StripSplit | backend/Gemini.py:474 | the input is whitespace, then the stripped text, then whitespace |
| Text.StripUnique | backend/Gemini.py:484 | whitespace around a text with non-blank ends strips to exactly that text |
| Text.StripIdempotent | backend/Gemini.py:484 | stripping twice is stripping once |
| Text.StripPadded | backend/Gemini.py:484 | extra whitespace around any string does not change its stripped form |
| Text.Join | backend/Gemini.py:507 | `sep.join(parts)` is empty for no parts and otherwise starts with the first part and ends with the last |
| Text.JoinSnoc | backend/Gemini.py:514 | joining one more part appends the separator and that part, whatever came before |
| Attributes.SummaryValue | backend/Gemini.py:490 | `getp(k)`: None for a missing key, the raw value for a non-dict, and a dict's "predicted" entry (None if it has none) |
| Attributes.Predicted | backend/Gemini.py:535-539 | `pred(k)` is the truthiness of the same value `getp(k)` reads |
| Attributes.IsTrueImpliesPredicted | backend/Gemini.py:490-491 | a value that is `True` by identity is also truthy |
| Attributes.PredictedNotIsTrue | backend/Gemini.py:535-539 | truthiness is strictly weaker than `is True`: 1 and "yes" are truthy but not `True` |
| Attributes.FiredComplete | backend/Gemini.py:495-506 | every check whose attribute holds contributes its sentence |
| Attributes.FiredOnlyOn | backend/Gemini.py:495-506 | no sentence is produced unless a check that holds carries it |
| Attributes.FiredExactly | backend/Gemini.py:545-562 | with distinct sentences, a sentence is produced if and only if its attribute holds |
| Attributes.FiredNone | backend/Gemini.py:509-514 | nothing is produced if and only if no attribute holds |
| Attributes.FiredSplit | backend/Gemini.py:495-506 | checks run in declared order: an earlier check's sentences precede a later one's |
| Attributes.FiredTwo | backend/Gemini.py:510-513 | two consecutive checks give the first's sentence, then the second's, each only when its attribute holds |
| Attributes.FiredThree | backend/Gemini.py:553-558 | the same for three consecutive checks |
| Summary.FeatureTable | backend/Gemini.py:495-506 | the six descriptor phrases are distinct from each other and from "male" and "female" |
| Summary.Descriptors | backend/Gemini.py:489-506 | "male" is a descriptor iff `male` is True and "female" iff it is False; each feature phrase appears iff its attribute is True |
| Summary.JoinDescriptors | backend/Gemini.py:507 | the descriptor text is empty iff there are none; one gives " and x", two give "x and y", three give "x, y and z" |
| Summary.JoinDescriptorsStep | backend/Gemini.py:507 | for three descriptors or more, the first is followed by ", " and then the text of the rest, so every descriptor but the last two ends in ", " |
| Summary.Core | backend/Gemini.py:507-508 | the core sentence is non-empty with no surrounding whitespace; it is the generic sentence iff no descriptor fired, and otherwise "You appear ", the joined descriptors and "." |
| Summary.SummaryOf | backend/Gemini.py:507-515 | the dict summary has no surrounding whitespace |
| Summary.LocalSummary | backend/Gemini.py:486-517 | the summary is never empty, has no surrounding whitespace, is the dict summary for a dict record and the fixed fallback sentence for a record that is not a dict |
| Summary.AdvisoryTail | backend/Gemini.py:509-514 | a non-empty advisory tail has no surrounding whitespace |
| Summary.SummaryShape | backend/Gemini.py:514-515 | the final strip leaves the core sentence, then one space and the advisories joined by spaces when there are any |
| Summary.SummaryFallback | backend/Gemini.py:508-515 | a dict with no descriptor and no advisory summarises as exactly the generic sentence |
| Summary.DescriptorOrder | backend/Gemini.py:489-506 | descriptors are the gender word, then feature phrases in declared order, for any split of the feature checks |
| Summary.SingleDescriptor | backend/Gemini.py:507-508 | a single descriptor yields "You appear  and x." with a doubled space |
| Summary.MaleOnly | backend/Gemini.py:491-508 | a record where only `male` is True summarises as "You appear  and male." |
| Content.Take | backend/Gemini.py:565-570 | slicing `xs[:n]` gives a prefix of at most n items, and all of xs when it fits |
| Content.Section | backend/Gemini.py:565-569 | a section `fired[:cap] or [default]` is never empty and never longer than its cap |
| Content.ContentOf | backend/Gemini.py:534-571 | the four recommendation lists are non-empty and within their caps, the comment is empty and the observations are the disclaimer |
| Content.LocalContent | backend/Gemini.py:534-571 | the local content exists iff the record is a dict, is then the rule-built content of that dict, and is an attribute error otherwise |
| Content.ToValueFields | backend/Gemini.py:564-571 | the content dict has exactly the six keys, each holding its field |
| Content.SkincareExact | backend/Gemini.py:545-548 | skincare is the oily-skin sentence then the dark-circles sentence, each iff its attribute is truthy, else the default |
| Content.GroomingExact | backend/Gemini.py:549-552 | grooming is the curly-hair sentence then the beard sentence, each iff truthy, else the default |
| Content.PositivesExact | backend/Gemini.py:553-558 | positives are jawline, eyes and attractive sentences in that order, each iff truthy, else the default |
| Content.ImproveExact | backend/Gemini.py:559-562 | improvements are the patchy-beard then the hairline sentence, each iff truthy, else the default |
| Content.OilySkinOnly | backend/Gemini.py:545-548 | with only oily skin truthy, skincare is exactly the oil-free-cleanser sentence |
| Content.SectionTriggers | backend/Gemini.py:540-569 | in a section whose rules fit its cap, a rule's sentence appears iff its attribute is truthy |
| Content.SkincareTriggers | backend/Gemini.py:545-548 | each skincare sentence appears iff its attribute is truthy |
| Content.GroomingTriggers | backend/Gemini.py:549-552 | each grooming sentence appears iff its attribute is truthy |
| Content.PositivesTriggers | backend/Gemini.py:553-558 | each positive sentence appears iff its attribute is truthy |
| Content.ImproveTriggers | backend/Gemini.py:559-562 | each improvement sentence appears iff its attribute is truthy |
| Completion.FillMissing | backend/Gemini.py:591-596 | after the loop every required key is present, existing keys keep their values, no other key appears, and new keys hold [] for "_list" keys and "" otherwise |
| Completion.CompleteContent | backend/Gemini.py:586-596 | a parsed dict always completes to a dict with all required keys; a parsed list or string passes unchanged iff every key is already "in" it, and fails otherwise; any other value fails |
| Completion.CompletePreserves | backend/Gemini.py:592-596 | keys the reply already had, and keys outside the required six, are left alone |
| Completion.RequiredDefaults | backend/Gemini.py:587-596 | the five "_list" keys default to an empty list and the comment key to an empty string |
| Completion.FillPresent | backend/Gemini.py:591-592 | the loop leaves a dict that already has every key unchanged |
| Completion.FillIdempotent | backend/Gemini.py:591-596 | running the fill loop twice is running it once |
| Report.Kept | backend/Gemini.py:609-613 | the kept items are non-empty and stripped, and no more numerous than the input |
| Report.KeptComplete | backend/Gemini.py:609-613 | every item that is not blank is kept, stripped |
| Report.FormatListItems | backend/Gemini.py:603-615 | the output is never empty; it is the placeholder iff no item survives stripping, and otherwise one `<li>` line per surviving item joined by newlines |
| Report.ItemsFrame | backend/Gemini.py:613-615 | a non-empty rendering starts with `<li>` and ends with `</li>` |
| Report.KeptSplit | backend/Gemini.py:611-613 | items are kept in order: the kept items of a concatenation are the concatenation of kept items |
| Report.BlankIgnored | backend/Gemini.py:611-613 | a blank item anywhere in the list does not change the output |
| Report.CleanItemsRendered | backend/Gemini.py:608-615 | stripped, non-blank items each become one list item, in order |
| Report.ListItems | backend/Gemini.py:605-611 | a falsy value gives no items; a string gives its characters one by one, in order; a list gives `str()` of each item in order and succeeds when all are strings; a truthy number or bool fails |
| Report.DisplayAll | backend/Gemini.py:611 | `str()` of every item, in order; a list of strings always succeeds |
| Report.Probability | backend/Gemini.py:630 | a missing `attractive` or a dict without "probability" gives 0; a numeric probability is read as is and a bool as 1 or 0; any other probability, a non-dict `attractive` or a non-dict record fails |
| Report.MissingListPlaceholder | backend/Gemini.py:645-652 | a list key missing from the content renders the placeholder |
| Report.CommentSlot | backend/Gemini.py:633 | at or below 0.7 the comment is empty; above it, it is the content's comment (empty when absent) and succeeds exactly when that comment can be shown |
| Report.RenderSlots | backend/Gemini.py:627-652 | the section is hidden iff p <= 0.7, the comment is forced empty then, the score is that of p*10, the lists are the rendered list fields, the other values pass through, the render succeeds whenever its steps do, and a failed probability read fails it with that error |
| Report.Document | backend/Gemini.py:639-651 | the filled template begins with the template's opening text and ends with its closing text |
| Report.DocumentSlot | backend/Gemini.py:282-322 | each placeholder of the template is replaced by its value, between the template's own text before and after it |
| Generation.GenerateSummary | backend/Gemini.py:519-532 | the remote reply stripped when enabled and answered, the local summary otherwise |
| Generation.RemoteContent | backend/Gemini.py:583-598 | the stripped, unfenced reply is parsed; an unparseable reply fails with a parse error, and a parsed value is completed exactly as the fill loop does it: a dict gains the missing required keys, a list or string passes iff it already holds every key, anything else fails |
| Generation.GenerateContent | backend/Gemini.py:573-601 | a dict record always yields content; any dict result has all required keys; the remote result is used iff the model is on, answered and its reply completes, and the local content otherwise; on the fallback path a record that is not a dict fails, and any failure is that attribute error |
| Generation.GenerateHtmlReport | backend/Gemini.py:621-661 | the report is the filled template, and any error becomes a RuntimeError around the original |
| Generation.StrsListed | backend/Gemini.py:564-571 | a list of strings stored in the content is read back by the renderer as the same items |
| Generation.LocalLists | backend/Gemini.py:645-652 | each list of the local content renders as that list |
| Generation.LocalComment | backend/Gemini.py:567 | the local content's empty comment leaves the comment slot empty at any probability |
| Generation.LocalContentRenders | backend/Gemini.py:534-571 | the local content always renders once the probability can be read, with every list rendered and an empty comment |
| Generation.ReportOfSlots | backend/Gemini.py:639-657 | successful slots are filled into the template |
| Generation.OfflineReport | backend/Gemini.py:630-652 | with no `attractive` and the local content, the report is hidden, scored 0 and carries no comment |
| Generation.RemoteFenced | backend/Gemini.py:583-596 | a dict reply inside the usual "```json" fence is parsed from its body and completed |

## Left out

- The remote text model is left out: `configure_gemini`, the prompts, `genai` and the API key. Its reply is a parameter.
- `json.loads` and `json.dumps` are left out. Parsing is a parameter.
- `load_json_file`, `main`, the file checks and writing the report are left out; they are file I/O.
- `get_formatted_timestamp` is left out because it reads the clock. The timestamp is a parameter.
- The console messages (`print`) are left out.
- Report.RenderSlots: the score's text is the parameter `showScore`, so float rounding of `round(p*10, 2)` is not modelled. An integer probability printing without ".0" is not modelled either.
- Report.RenderSlots: probabilities are exact reals, so floating-point comparison near 0.7, NaN and infinities are not modelled.
- Json.Display: `str()` of numbers, lists and dicts is not modelled. Such a value in a list or as the comment gives the `Unmodelled` error, not Python's text.
- Report.ListItems: a dict stored as a list field would be iterated over its keys in insertion order. That is not modelled (`Unmodelled`).
- Report.Document: the template's CSS and page styling are left out, an empty `<style>` element stands in for them. The text around every placeholder is kept.
- Fence.CleanBareFence: the lemma requires a body not starting with "json". Such a reply starts with "```json", and `clean_json_response` removes that longer prefix instead, so "json" is lost from the body.

Behaviour of `backend/Gemini.py` worth noting:

- The hairline attribute is spelled `receeding_hairline` (line 561).
- A malformed `attractive` entry makes `generate_html_report` raise a `RuntimeError`; it is not read as 0 (lines 630 and 656-657).
- The summary's static fallback sentence appears only when the record is not a dict; a dict never makes `_local_summary` fail (lines 486-517).

=== FILE: attributes.dfy ===
/**
 * Reading the attribute record. An attribute is either a plain value or a
 * dict whose "predicted" field carries the prediction. The summary and the
 * content synthesisers normalise it differently, and both are kept.
 */
module Attributes {
  import opened Json

  type Record = map<string, Value>

  /** `data.get(k)`: None when the key is absent. */
  function Lookup(m: Record, k: string): Value {
    Get(m, k, Null)
  }

  /** `getp(k)` of `_local_summary`: a dict's "predicted" field, else the raw value. */
  function SummaryValue(m: Record, k: string): (r: Value)
    ensures k !in m ==> r == Null
    ensures k in m && !m[k].Obj? ==> r == m[k]
    ensures k in m && m[k].Obj? && "predicted" in m[k].fields ==> r == m[k].fields["predicted"]
    ensures k in m && m[k].Obj? && "predicted" !in m[k].fields ==> r == Null
  {
    match Lookup(m, k)
    case Obj(f) => Get(f, "predicted", Null)
    case v => v
  }

  /** `getp(k) is True`: only the boolean True itself passes. */
  predicate IsTrue(m: Record, k: string) {
    SummaryValue(m, k) == Bool(true)
  }

  /** `pred(k)` of `_local_content`: Python truthiness of the same value. */
  predicate Predicted(m: Record, k: string): (r: bool)
    ensures r <==> Truthy(SummaryValue(m, k))
  {
    match Lookup(m, k)
    case Obj(f) => Truthy(Get(f, "predicted", Null))
    case v => Truthy(v)
  }

  /** An attribute the summary accepts is one the content rules accept too. */
  lemma IsTrueImpliesPredicted(m: Record, k: string)
    ensures IsTrue(m, k) ==> Predicted(m, k)
  {
  }

  /** The converse fails: a prediction of 1 or "yes" passes `bool()` but is not `True`. */
  lemma PredictedNotIsTrue(k: string)
    ensures Predicted(map[k := Num(1.0)], k) && !IsTrue(map[k := Num(1.0)], k)
    ensures Predicted(map[k := Obj(map["predicted" := Str("yes")])], k)
    ensures !IsTrue(map[k := Obj(map["predicted" := Str("yes")])], k)
  {
  }

  /** The two normalisations: `getp(k) is True` (summary) and `pred(k)` (content). */
  datatype Test = ExactTrue | Truthiness

  predicate On(m: Record, test: Test, k: string) {
    match test
    case ExactTrue => IsTrue(m, k)
    case Truthiness => Predicted(m, k)
  }

  /** One fixed check: when attribute `key` is on, sentence `text` is produced. */
  datatype Rule = Rule(key: string, text: string)

  predicate DistinctTexts(rules: seq<Rule>) {
    forall i, j :: 0 <= i < j < |rules| ==> rules[i].text != rules[j].text
  }

  /** The sentences of the rules that are on, in the rules' declared order. */
  function Fired(m: Record, test: Test, rules: seq<Rule>): (r: seq<string>)
    ensures |r| <= |rules|
  {
    if rules == [] then []
    else
      var rest := Fired(m, test, rules[1..]);
      if On(m, test, rules[0].key) then [rules[0].text] + rest else rest
  }

  /** Every rule that is on contributes its sentence. */
  lemma {:induction false} FiredComplete(m: Record, test: Test, rules: seq<Rule>, i: int)
    requires 0 <= i < |rules| && On(m, test, rules[i].key)
    ensures rules[i].text in Fired(m, test, rules)
  {
    if i > 0 {
      assert rules[1..][i - 1] == rules[i];
      FiredComplete(m, test, rules[1..], i - 1);
    }
  }

  /** A sentence that no rule which is on carries is not produced. */
  lemma {:induction false} FiredOnlyOn(m: Record, test: Test, rules: seq<Rule>, t: string)
    requires forall i :: 0 <= i < |rules| && On(m, test, rules[i].key) ==> rules[i].text != t
    ensures t !in Fired(m, test, rules)
  {
    if rules != [] {
      assert forall i :: 0 <= i < |rules[1..]| ==> rules[1..][i] == rules[i + 1];
      FiredOnlyOn(m, test, rules[1..], t);
    }
  }

  /** With distinct sentences, a rule's sentence is produced exactly when the rule is on. */
  lemma FiredExactly(m: Record, test: Test, rules: seq<Rule>, i: int)
    requires DistinctTexts(rules) && 0 <= i < |rules|
    ensures rules[i].text in Fired(m, test, rules) <==> On(m, test, rules[i].key)
  {
    if On(m, test, rules[i].key) {
      FiredComplete(m, test, rules, i);
    } else {
      FiredOnlyOn(m, test, rules, rules[i].text);
    }
  }

  /** Nothing fires exactly when no rule is on. */
  lemma {:induction false} FiredNone(m: Record, test: Test, rules: seq<Rule>)
    ensures Fired(m, test, rules) == [] <==> forall i :: 0 <= i < |rules| ==> !On(m, test, rules[i].key)
  {
    if rules != [] {
      FiredNone(m, test, rules[1..]);
      assert forall i :: 1 <= i < |rules| ==> rules[i] == rules[1..][i - 1];
    }
  }

  /** Checks run in declared order: the sentences of earlier rules precede those of later ones. */
  lemma {:induction false} FiredSplit(m: Record, test: Test, xs: seq<Rule>, ys: seq<Rule>)
    ensures Fired(m, test, xs + ys) == Fired(m, test, xs) + Fired(m, test, ys)
  {
    if xs != [] {
      var zs := xs + ys;
      assert zs[0] == xs[0] && zs[1..] == xs[1..] + ys;
      FiredSplit(m, test, xs[1..], ys);
      var head := if On(m, test, xs[0].key) then [xs[0].text] else [];
      assert Fired(m, test, zs) == head + Fired(m, test, zs[1..]);
      assert Fired(m, test, xs) == head + Fired(m, test, xs[1..]);
    } else {
      assert xs + ys == ys;
    }
  }

  /** Two checks in a row produce their sentences in that order. */
  lemma FiredTwo(m: Record, test: Test, a: Rule, b: Rule)
    ensures Fired(m, test, [a, b])
      == (if On(m, test, a.key) then [a.text] else []) + (if On(m, test, b.key) then [b.text] else [])
  {
    assert [a, b][1..] == [b];
    assert [b][1..] == [];
  }

  lemma FiredThree(m: Record, test: Test, a: Rule, b: Rule, c: Rule)
    ensures Fired(m, test, [a, b, c])
      == (if On(m, test, a.key) then [a.text] else [])
       + (if On(m, test, b.key) then [b.text] else [])
       + (if On(m, test, c.key) then [c.text] else [])
  {
    assert [a, b, c][1..] == [b, c];
    FiredTwo(m, test, b, c);
  }
}

=== FILE: completion.dfy ===
/**
 * The post-processing step of `generate_content`: after the model's reply is
 * parsed, every required key the reply lacks is added with an empty value.
 */
module Completion {
  import opened Results
  import opened Json
  import opened Text

  const RequiredKeys: seq<string> := [
    "skincare_list", "grooming_list", "attractiveness_comment",
    "positive_features_list", "features_to_improve_list", "other_observations_list"
  ]

  /** `[]` for a key ending in "_list", `""` for any other key. */
  function EmptyFor(k: string): Value {
    if EndsWith(k, "_list") then Arr([]) else Str("")
  }

  /** The fill loop over a dict: keys are visited in order, and only missing ones are set. */
  function FillMissing(m: map<string, Value>, keys: seq<string>): (r: map<string, Value>)
    ensures forall k :: k in keys ==> k in r
    ensures forall k :: k in m ==> k in r && r[k] == m[k]
    ensures forall k :: k in r ==> k in m || k in keys
    ensures forall k :: k in r && k !in m ==> r[k] == EmptyFor(k)
    decreases |keys|
  {
    if keys == [] then m
    else
      var k := keys[0];
      var next := if k in m then m else m[k := EmptyFor(k)];
      assert forall j :: j in keys[1..] ==> j in keys;
      FillMissing(next, keys[1..])
  }

  /** Python's `sub in s` on strings. */
  predicate Contains(s: string, sub: string)
    decreases |s|
  {
    StartsWith(s, sub) || (s != [] && Contains(s[1..], sub))
  }

  /**
   * The fill loop over whatever `json.loads` returned. A dict is completed.
   * For a list or a string, `key not in content` is a membership or substring
   * test, and assigning a missing key raises; a number, boolean or None
   * cannot be searched at all.
   */
  function CompleteContent(v: Value): (r: Result<Value, Exception>)
    ensures v.Obj? ==> r.Ok? && r.value.Obj? && forall k :: k in RequiredKeys ==> k in r.value.fields
    ensures r.Ok? && r.value.Obj? ==> v.Obj? && forall k :: k in RequiredKeys ==> k in r.value.fields
    ensures r.Ok? && !v.Obj? ==> r.value == v
    ensures v.Arr? ==> (r.Ok? <==> forall k :: k in RequiredKeys ==> Str(k) in v.items)
    ensures v.Str? ==> (r.Ok? <==> forall k :: k in RequiredKeys ==> Contains(v.s, k))
    ensures !(v.Obj? || v.Arr? || v.Str?) ==> r.Err?
  {
    match v
    case Obj(m) => Ok(Obj(FillMissing(m, RequiredKeys)))
    case Arr(items) =>
      if forall k :: k in RequiredKeys ==> Str(k) in items then Ok(v)
      else Err(TypeError("list indices must be integers or slices, not str"))
    case Str(s) =>
      if forall k :: k in RequiredKeys ==> Contains(s, k) then Ok(v)
      else Err(TypeError("'str' object does not support item assignment"))
    case _ => Err(TypeError("argument is not iterable"))
  }

  /** Keys already present, and keys outside the required six, are left as they were. */
  lemma CompletePreserves(m: map<string, Value>)
    ensures var r := CompleteContent(Obj(m)).value.fields;
      (forall k :: k in m ==> k in r && r[k] == m[k])
      && (forall k :: k in r && k !in RequiredKeys ==> k in m)
  {
  }

  /** Five required keys get an empty list and `attractiveness_comment` gets an empty string. */
  lemma RequiredDefaults()
    ensures forall i :: 0 <= i < |RequiredKeys| && i != 2 ==> EmptyFor(RequiredKeys[i]) == Arr([])
    ensures RequiredKeys[2] == "attractiveness_comment" && EmptyFor(RequiredKeys[2]) == Str("")
  {
    assert EndsWith(RequiredKeys[0], "_list");
    assert EndsWith(RequiredKeys[1], "_list");
    assert !EndsWith(RequiredKeys[2], "_list");
    assert EndsWith(RequiredKeys[3], "_list");
    assert EndsWith(RequiredKeys[4], "_list");
    assert EndsWith(RequiredKeys[5], "_list");
  }

  /** The fill loop changes nothing when every key it visits is already present. */
  lemma {:induction false} FillPresent(m: map<string, Value>, keys: seq<string>)
    requires forall k :: k in keys ==> k in m
    ensures FillMissing(m, keys) == m
    decreases |keys|
  {
    if keys != [] {
      assert forall j :: j in keys[1..] ==> j in keys;
      FillPresent(m, keys[1..]);
    }
  }

  /** Running the fill loop a second time, over the same keys, changes nothing. */
  lemma FillIdempotent(m: map<string, Value>, keys: seq<string>)
    ensures FillMissing(FillMissing(m, keys), keys) == FillMissing(m, keys)
  {
    FillPresent(FillMissing(m, keys), keys);
  }
}

=== FILE: content.dfy ===
/**
 * `_local_content`: the rules-based report content used when the remote
 * model is not available. Each check appends a fixed sentence to one of
 * five lists; each list is capped and falls back to a default sentence.
 */
module Content {
  import opened Results
  import opened Json
  import opened Attributes

  datatype Content = Content(
    skincare: seq<string>,
    grooming: seq<string>,
    attractivenessComment: string,
    positives: seq<string>,
    improve: seq<string>,
    observations: seq<string>)

  const SkincareRules: seq<Rule> := [
    Rule("oily_skin", "Use an oil-free cleanser and " + "non-comedogenic moisturizer."),
    Rule("dark_circles", "Consider eye cream with caffeine " + "and ensure proper sleep.")
  ]

  const GroomingRules: seq<Rule> := [
    Rule("curly_hair", "Use sulfate-free shampoo and " + "a curl-defining leave-in."),
    Rule("has_beard", "Apply beard oil and maintain " + "regular trims for shape.")
  ]

  const PositiveRules: seq<Rule> := [
    Rule("sharp_jawline", "Well-defined jawline enhances " + "facial structure."),
    Rule("big_eyes", "Expressive eyes draw " + "positive attention."),
    Rule("attractive", "Overall attractive " + "facial balance.")
  ]

  /** The hairline key is spelled "receeding_hairline", as `Gemini.py` reads it. */
  const ImproveRules: seq<Rule> := [
    Rule("patchy_beard", "Even growth can improve with " + "regular grooming and patience."),
    Rule("receeding_hairline", "Consult a specialist and consider " + "volumizing hairstyles.")
  ]

  const DefaultSkincare := "Maintain a consistent, " + "gentle skincare routine."
  const DefaultGrooming := "Keep a regular grooming routine " + "aligned with your hair type."
  const DefaultPositive := "Multiple strengths observed " + "across features."
  const DefaultImprove := "No major areas of improvement " + "identified."
  const Disclaimer := "Recommendations are informational " + "and not medical advice."

  const SkincareCap := 4
  const GroomingCap := 4
  const PositiveCap := 5
  const ImproveCap := 4
  const ObservationCap := 3

  /** `xs[:n]`. */
  function Take(xs: seq<string>, n: nat): (r: seq<string>)
    ensures |r| <= n && |r| <= |xs| && r == xs[..|r|]
    ensures |xs| <= n ==> r == xs
  {
    if |xs| <= n then xs else xs[..n]
  }

  /** `fired[:cap] or [default]` over the sentences of the rules that are on. */
  function Section(m: Record, rules: seq<Rule>, cap: nat, default: string): (r: seq<string>)
    requires 1 <= cap
    ensures r != [] && |r| <= cap
  {
    var picked := Take(Fired(m, Truthiness, rules), cap);
    if picked == [] then [default] else picked
  }

  /** `_local_content` on a dict. */
  function ContentOf(m: Record): (r: Content)
    ensures r.skincare != [] && r.grooming != [] && r.positives != [] && r.improve != []
    ensures |r.skincare| <= SkincareCap && |r.grooming| <= GroomingCap
    ensures |r.positives| <= PositiveCap && |r.improve| <= ImproveCap
    ensures r.attractivenessComment == ""
    ensures r.observations == [Disclaimer]
  {
    Content(
      Section(m, SkincareRules, SkincareCap, DefaultSkincare),
      Section(m, GroomingRules, GroomingCap, DefaultGrooming),
      "",
      Section(m, PositiveRules, PositiveCap, DefaultPositive),
      Section(m, ImproveRules, ImproveCap, DefaultImprove),
      Take([Disclaimer], ObservationCap))
  }

  /** `_local_content(data)`: `data.get` raises when the record is not a dict. */
  function LocalContent(data: Value): (r: Result<Content, Exception>)
    ensures r.Ok? <==> data.Obj?
    ensures r.Ok? ==> r.value == ContentOf(data.fields)
    ensures r.Err? ==> r.error.AttributeError?
  {
    match data
    case Obj(m) => Ok(ContentOf(m))
    case _ => Err(AttributeError("get"))
  }

  /** The content as the dict the renderer reads. */
  function ToValue(c: Content): Value {
    Obj(map[
      "skincare_list" := Strs(c.skincare),
      "grooming_list" := Strs(c.grooming),
      "attractiveness_comment" := Str(c.attractivenessComment),
      "positive_features_list" := Strs(c.positives),
      "features_to_improve_list" := Strs(c.improve),
      "other_observations_list" := Strs(c.observations)])
  }

  /** Each key of the dict holds its field; the six keys begin with six different letters. */
  lemma ToValueFields(c: Content)
    ensures var f := ToValue(c).fields;
      f.Keys == {"skincare_list", "grooming_list", "attractiveness_comment",
                 "positive_features_list", "features_to_improve_list", "other_observations_list"}
      && f["skincare_list"] == Strs(c.skincare)
      && f["grooming_list"] == Strs(c.grooming)
      && f["attractiveness_comment"] == Str(c.attractivenessComment)
      && f["positive_features_list"] == Strs(c.positives)
      && f["features_to_improve_list"] == Strs(c.improve)
      && f["other_observations_list"] == Strs(c.observations)
  {
    assert "skincare_list"[0] == 's' && "grooming_list"[0] == 'g' && "attractiveness_comment"[0] == 'a';
    assert "positive_features_list"[0] == 'p' && "features_to_improve_list"[0] == 'f';
    assert "other_observations_list"[0] == 'o';
  }

  function Strs(xs: seq<string>): (r: Value)
    ensures r.Arr? && |r.items| == |xs|
    ensures forall i :: 0 <= i < |xs| ==> r.items[i] == Str(xs[i])
  {
    Arr(seq(|xs|, i requires 0 <= i < |xs| => Str(xs[i])))
  }

  /**
   * Skincare: the oily-skin sentence, then the dark-circles sentence, each
   * exactly when its attribute is truthy; the default when neither is.
   */
  lemma SkincareExact(m: Record)
    ensures var fired := (if Predicted(m, "oily_skin") then [SkincareRules[0].text] else [])
                       + (if Predicted(m, "dark_circles") then [SkincareRules[1].text] else []);
      ContentOf(m).skincare == if fired == [] then [DefaultSkincare] else fired
  {
    FiredTwo(m, Truthiness, SkincareRules[0], SkincareRules[1]);
  }

  /** Grooming: curly hair, then beard; the default when neither is truthy. */
  lemma GroomingExact(m: Record)
    ensures var fired := (if Predicted(m, "curly_hair") then [GroomingRules[0].text] else [])
                       + (if Predicted(m, "has_beard") then [GroomingRules[1].text] else []);
      ContentOf(m).grooming == if fired == [] then [DefaultGrooming] else fired
  {
    FiredTwo(m, Truthiness, GroomingRules[0], GroomingRules[1]);
  }

  /** Positives: jawline, eyes, overall attractiveness; the default when none is truthy. */
  lemma PositivesExact(m: Record)
    ensures var fired := (if Predicted(m, "sharp_jawline") then [PositiveRules[0].text] else [])
                       + (if Predicted(m, "big_eyes") then [PositiveRules[1].text] else [])
                       + (if Predicted(m, "attractive") then [PositiveRules[2].text] else []);
      ContentOf(m).positives == if fired == [] then [DefaultPositive] else fired
  {
    FiredThree(m, Truthiness, PositiveRules[0], PositiveRules[1], PositiveRules[2]);
  }

  /** Improvements: patchy beard, then the hairline; the default when neither is truthy. */
  lemma ImproveExact(m: Record)
    ensures var fired := (if Predicted(m, "patchy_beard") then [ImproveRules[0].text] else [])
                       + (if Predicted(m, "receeding_hairline") then [ImproveRules[1].text] else []);
      ContentOf(m).improve == if fired == [] then [DefaultImprove] else fired
  {
    FiredTwo(m, Truthiness, ImproveRules[0], ImproveRules[1]);
  }

  /** With only `oily_skin` truthy among the skincare checks, skincare is the one oil-control sentence. */
  lemma OilySkinOnly(m: Record)
    requires Predicted(m, "oily_skin") && !Predicted(m, "dark_circles")
    ensures ContentOf(m).skincare == [SkincareRules[0].text]
  {
    SkincareExact(m);
  }

  /**
   * In a section whose rules all fit under the cap and whose sentences differ
   * from each other and from the default, a rule's sentence appears exactly
   * when its attribute is truthy.
   */
  lemma SectionTriggers(m: Record, rules: seq<Rule>, cap: nat, default: string, i: int)
    requires 1 <= cap && |rules| <= cap && 0 <= i < |rules|
    requires DistinctTexts(rules)
    requires forall j :: 0 <= j < |rules| ==> rules[j].text != default
    ensures rules[i].text in Section(m, rules, cap, default) <==> Predicted(m, rules[i].key)
  {
    FiredExactly(m, Truthiness, rules, i);
  }

  /**
   * The sentences of each table differ from each other and from the default,
   * told apart by their first letters. The longer sentences are written as
   * two literals so that the verifier unfolds their first characters.
   */
  lemma SkincareTable()
    ensures DistinctTexts(SkincareRules)
    ensures forall j :: 0 <= j < |SkincareRules| ==> SkincareRules[j].text != DefaultSkincare
  {
    assert SkincareRules[0].text[0] == 'U' && SkincareRules[1].text[0] == 'C' && DefaultSkincare[0] == 'M';
  }

  lemma GroomingTable()
    ensures DistinctTexts(GroomingRules)
    ensures forall j :: 0 <= j < |GroomingRules| ==> GroomingRules[j].text != DefaultGrooming
  {
    assert GroomingRules[0].text[0] == 'U' && GroomingRules[1].text[0] == 'A' && DefaultGrooming[0] == 'K';
  }

  lemma PositiveTable()
    ensures DistinctTexts(PositiveRules)
    ensures forall j :: 0 <= j < |PositiveRules| ==> PositiveRules[j].text != DefaultPositive
  {
    assert PositiveRules[0].text[0] == 'W' && PositiveRules[1].text[0] == 'E';
    assert PositiveRules[2].text[0] == 'O' && DefaultPositive[0] == 'M';
  }

  lemma ImproveTable()
    ensures DistinctTexts(ImproveRules)
    ensures forall j :: 0 <= j < |ImproveRules| ==> ImproveRules[j].text != DefaultImprove
  {
    assert ImproveRules[0].text[0] == 'E' && ImproveRules[1].text[0] == 'C' && DefaultImprove[0] == 'N';
  }

  /** The sentence of a skincare check appears exactly when its attribute is truthy. */
  lemma SkincareTriggers(m: Record)
    ensures forall i :: 0 <= i < |SkincareRules| ==>
      (SkincareRules[i].text in ContentOf(m).skincare <==> Predicted(m, SkincareRules[i].key))
  {
    SkincareTable();
    forall i | 0 <= i < |SkincareRules| {
      SectionTriggers(m, SkincareRules, SkincareCap, DefaultSkincare, i);
    }
  }

  lemma GroomingTriggers(m: Record)
    ensures forall i :: 0 <= i < |GroomingRules| ==>
      (GroomingRules[i].text in ContentOf(m).grooming <==> Predicted(m, GroomingRules[i].key))
  {
    GroomingTable();
    forall i | 0 <= i < |GroomingRules| {
      SectionTriggers(m, GroomingRules, GroomingCap, DefaultGrooming, i);
    }
  }

  lemma PositivesTriggers(m: Record)
    ensures forall i :: 0 <= i < |PositiveRules| ==>
      (PositiveRules[i].text in ContentOf(m).positives <==> Predicted(m, PositiveRules[i].key))
  {
    PositiveTable();
    forall i | 0 <= i < |PositiveRules| {
      SectionTriggers(m, PositiveRules, PositiveCap, DefaultPositive, i);
    }
  }

  lemma ImproveTriggers(m: Record)
    ensures forall i :: 0 <= i < |ImproveRules| ==>
      (ImproveRules[i].text in ContentOf(m).improve <==> Predicted(m, ImproveRules[i].key))
  {
    ImproveTable();
    forall i | 0 <= i < |ImproveRules| {
      SectionTriggers(m, ImproveRules, ImproveCap, DefaultImprove, i);
    }
  }
}

=== FILE: fence.dfy ===
/**
 * `clean_json_response`: unwraps a model reply that arrives inside a
 * markdown code fence before it is parsed as JSON.
 */
module Fence {
  import opened Text

  const Fence := "```"
  const JsonFence := "```json"

  /**
   * Strip the reply, drop one leading "```json" (else one leading "```"),
   * drop one trailing "```", and strip again.
   */
  function CleanJsonResponse(text: string): (r: string)
    ensures IsStripped(r)
    ensures |r| <= |text|
  {
    Strip(Unfence(Strip(text)))
  }

  /** Drop one opening and one closing fence, when present. */
  function Unfence(t: string): string {
    var u := t[Opening(t)..];
    u[..|u| - Closing(u)]
  }

  /** The length of the opening fence removed: "```json" first, else "```", else none. */
  function Opening(t: string): (n: nat)
    ensures n <= |t|
  {
    if StartsWith(t, JsonFence) then |JsonFence|
    else if StartsWith(t, Fence) then |Fence|
    else 0
  }

  /** The length of the closing fence removed: "```" or none. */
  function Closing(u: string): (n: nat)
    ensures n <= |u|
  {
    if EndsWith(u, Fence) then |Fence| else 0
  }

  /** A reply without a fence at either end is only whitespace-trimmed. */
  lemma CleanUnfenced(text: string)
    requires !StartsWith(Strip(text), Fence) && !EndsWith(Strip(text), Fence)
    ensures CleanJsonResponse(text) == Strip(text)
  {
    var t := Strip(text);
    assert JsonFence[..|Fence|] == Fence;
    assert |t| < |JsonFence| || t[..|JsonFence|][..|Fence|] == t[..|Fence|];
    assert Opening(t) == 0 && Closing(t) == 0;
    assert Unfence(t) == t;
    StripIdempotent(text);
  }

  /** A "```json" fence around any body is removed, and the body comes back stripped. */
  lemma {:induction false} CleanJsonFence(s: string)
    ensures CleanJsonResponse(JsonFence + s + Fence) == Strip(s)
  {
    var x := JsonFence + s + Fence;
    assert x[0] == '`' && x[|x| - 1] == '`';
    StrippedFixed(x);
    assert x[..|JsonFence|] == JsonFence;
    var u := x[|JsonFence|..];
    assert u == s + Fence;
    assert u[|u| - |Fence|..] == Fence;
    assert u[..|u| - |Fence|] == s;
  }

  /**
   * A bare "```" fence is removed the same way, as long as the body does
   * not begin with "json" ("```json" would be read as the language-tagged fence).
   */
  lemma {:induction false} CleanBareFence(s: string)
    requires !StartsWith(s, "json")
    ensures CleanJsonResponse(Fence + s + Fence) == Strip(s)
  {
    var x := Fence + s + Fence;
    assert x[0] == '`' && x[|x| - 1] == '`';
    StrippedFixed(x);
    if |s| >= 4 {
      assert x[..|JsonFence|] == Fence + s[..4];
      assert (Fence + s[..4])[|Fence|..] == s[..4];
      assert JsonFence[|Fence|..] == "json";
    } else {
      assert x[|Fence| + |s|] == '`';
      assert JsonFence[3] != '`' && JsonFence[4] != '`' && JsonFence[5] != '`' && JsonFence[6] != '`';
    }
    assert !StartsWith(x, JsonFence) && x[..|Fence|] == Fence;
    assert Opening(x) == |Fence|;
    var u := x[|Fence|..];
    assert u == s + Fence;
    assert u[|u| - |Fence|..] == Fence;
    assert u[..|u| - |Fence|] == s;
    assert Unfence(x) == s;
  }

  /** The usual reply shape: "```json", newline, body, newline, "```". */
  lemma CleanJsonFenceLines(s: string)
    ensures CleanJsonResponse(JsonFence + "\n" + s + "\n" + Fence) == Strip(s)
  {
    Regroup(JsonFence, "\n", s, "\n", Fence);
    CleanJsonFence("\n" + s + "\n");
    StripPadded("\n", s, "\n");
  }

  /** The same with a bare "```" opening line. */
  lemma CleanBareFenceLines(s: string)
    ensures CleanJsonResponse(Fence + "\n" + s + "\n" + Fence) == Strip(s)
  {
    Regroup(Fence, "\n", s, "\n", Fence);
    assert ("\n" + s + "\n")[0] == '\n';
    CleanBareFence("\n" + s + "\n");
    StripPadded("\n", s, "\n");
  }

  /** Only the outermost fence is removed: a doubly fenced body keeps its inner fence. */
  lemma CleanRemovesOneFence(s: string)
    ensures CleanJsonResponse(JsonFence + (JsonFence + s + Fence) + Fence) == JsonFence + s + Fence
  {
    var inner := JsonFence + s + Fence;
    CleanJsonFence(inner);
    assert inner[0] == '`' && inner[|inner| - 1] == '`';
    StrippedFixed(inner);
  }

  /**
   * `t[i..|t| - j]` is `t` less at most one fence at each end: nothing, a
   * leading "```" or a leading "```json" in front, nothing or a trailing "```"
   * behind.
   */
  predicate OneFenceEach(t: string, i: int, j: int) {
    && 0 <= i && 0 <= j && i + j <= |t|
    && (i == 0 || (i == |Fence| && StartsWith(t, Fence)) || (i == |JsonFence| && StartsWith(t, JsonFence)))
    && (j == 0 || (j == |Fence| && EndsWith(t, Fence)))
  }

  /** Unfencing removes at most one fence at each end. */
  lemma UnfenceOneFence(t: string)
    ensures exists i, j :: OneFenceEach(t, i, j) && Unfence(t) == t[i..|t| - j]
  {
    var i := Opening(t);
    var j := Closing(t[i..]);
    SliceOfSlice(t, i, j);
    assert OneFenceEach(t, i, j) && Unfence(t) == t[i..|t| - j];
  }

  /** For every reply, cleaning removes at most one fence at each end of the stripped reply. */
  lemma CleanAtMostOneFence(text: string)
    ensures var t := Strip(text);
      exists i, j :: OneFenceEach(t, i, j) && CleanJsonResponse(text) == Strip(t[i..|t| - j])
  {
    var t := Strip(text);
    UnfenceOneFence(t);
    var i, j :| OneFenceEach(t, i, j) && Unfence(t) == t[i..|t| - j];
    assert CleanJsonResponse(text) == Strip(t[i..|t| - j]);
  }

  /** Stripping the reply first, as `generate_content` does, changes nothing. */
  lemma CleanStripped(text: string)
    ensures CleanJsonResponse(Strip(text)) == CleanJsonResponse(text)
  {
    StripIdempotent(text);
  }
}

=== FILE: generation.dfy ===
/**
 * The three generation steps of the report pipeline: the summary and the
 * content each come from the remote model when it is enabled and answers,
 * and from the local rules otherwise; the report fills the template.
 *
 * The remote model is not modelled: its reply is a parameter, `None` when
 * the call raised. `json.loads` is the parameter `parse`, `None` when it
 * raised. The clock is the parameter `timestamp`.
 */
module Generation {
  import opened Results
  import opened Json
  import opened Text
  import Fence
  import Summary
  import Content
  import Completion
  import Report

  /**
   * `generate_summary`: the stripped reply of the remote model when it is
   * enabled and answered, the local summary otherwise.
   */
  function GenerateSummary(enabled: bool, reply: Option<string>, data: Value): (r: string)
    ensures IsStripped(r)
    ensures enabled && reply.Some? ==> r == Strip(reply.value)
    ensures !enabled || reply.None? ==> r == Summary.LocalSummary(data) && r != ""
  {
    if enabled && reply.Some? then Strip(reply.value) else Summary.LocalSummary(data)
  }

  /**
   * The `try` block of `generate_content` after the remote call: strip the
   * reply, remove its code fence, parse it and add the missing keys.
   */
  function RemoteContent(reply: string, parse: string -> Option<Value>): (r: Result<Value, Exception>)
    ensures r.Ok? ==> parse(Fence.CleanJsonResponse(Strip(reply))).Some?
    ensures r.Ok? && r.value.Obj? ==> forall k :: k in Completion.RequiredKeys ==> k in r.value.fields
    ensures parse(Fence.CleanJsonResponse(Strip(reply))) == Some(Obj(map[])) ==>
      r.Ok? && r.value.Obj? && forall k :: k in r.value.fields <==> k in Completion.RequiredKeys
    ensures forall f :: parse(Fence.CleanJsonResponse(Strip(reply))) == Some(Obj(f)) ==>
      r == Ok(Obj(Completion.FillMissing(f, Completion.RequiredKeys)))
    ensures forall v :: parse(Fence.CleanJsonResponse(Strip(reply))) == Some(v) ==>
      r == Completion.CompleteContent(v)
    ensures parse(Fence.CleanJsonResponse(Strip(reply))).None? ==> r.Err? && r.error.ValueError?
  {
    match parse(Fence.CleanJsonResponse(Strip(reply)))
    case None => Err(ValueError("json.loads"))
    case Some(v) => Completion.CompleteContent(v)
  }

  /**
   * `generate_content`: the completed remote reply when that succeeds, the
   * local content otherwise. The local fallback runs outside the `try`, so
   * its error on a record that is not a dict reaches the caller.
   */
  function GenerateContent(enabled: bool, reply: Option<string>, parse: string -> Option<Value>,
                           data: Value): (r: Result<Value, Exception>)
    ensures data.Obj? ==> r.Ok?
    ensures r.Err? ==> !data.Obj? && r.error.AttributeError?
    ensures r.Ok? && r.value.Obj? ==> forall k :: k in Completion.RequiredKeys ==> k in r.value.fields
    ensures (!enabled || reply.None? || RemoteContent(reply.value, parse).Err?) && data.Obj? ==>
      r == Ok(Content.ToValue(Content.ContentOf(data.fields)))
    ensures enabled && reply.Some? && RemoteContent(reply.value, parse).Ok? ==>
      r == RemoteContent(reply.value, parse)
    ensures (!enabled || reply.None? || RemoteContent(reply.value, parse).Err?) && !data.Obj? ==>
      r.Err?
  {
    var remote := if enabled && reply.Some? then RemoteContent(reply.value, parse) else Err(ValueError("no reply"));
    if remote.Ok? then remote
    else
      match Content.LocalContent(data)
      case Ok(c) => Ok(Content.ToValue(c))
      case Err(e) => Err(e)
  }

  /**
   * `generate_html_report`: the template filled with the eleven slot values;
   * any exception on the way is re-raised as a `RuntimeError` around it.
   */
  function GenerateHtmlReport(data: Value, summary: string, content: Value, imagePath: string,
                              timestamp: string, showScore: real -> string): (r: Result<string, Exception>)
    ensures r.Err? <==> Report.RenderSlots(data, summary, content, imagePath, timestamp, showScore).Err?
    ensures r.Err? ==> r.error == RuntimeError(Report.RenderSlots(data, summary, content, imagePath, timestamp, showScore).error)
    ensures r.Ok? ==> r.value == Report.Document(Report.RenderSlots(data, summary, content, imagePath, timestamp, showScore).value)
  {
    match Report.RenderSlots(data, summary, content, imagePath, timestamp, showScore)
    case Ok(s) => Ok(Report.Document(s))
    case Err(e) => Err(RuntimeError(e))
  }

  /** A list of strings stored by the local rules is read back as the same items. */
  lemma StrsListed(xs: seq<string>)
    ensures Report.ListItems(Content.Strs(xs)) == Ok(xs)
  {
    if xs != [] {
      var r := Report.DisplayAll(Content.Strs(xs).items);
      assert r.Ok?;
      assert r.value == xs;
    }
  }

  /** Each list of the local content renders as that list. */
  lemma LocalLists(c: Content.Content)
    ensures Report.FormatLists(Content.ToValue(c).fields)
      == Ok(Report.Lists(Report.FormatListItems(c.skincare), Report.FormatListItems(c.grooming),
                         Report.FormatListItems(c.positives), Report.FormatListItems(c.improve),
                         Report.FormatListItems(c.observations)))
  {
    Content.ToValueFields(c);
    StrsListed(c.skincare);
    StrsListed(c.grooming);
    StrsListed(c.positives);
    StrsListed(c.improve);
    StrsListed(c.observations);
  }

  /** An empty comment in the content leaves the comment slot empty at any probability. */
  lemma LocalComment(c: Content.Content, p: real)
    requires c.attractivenessComment == ""
    ensures Report.CommentSlot(p, Content.ToValue(c).fields) == Ok("")
  {
    Content.ToValueFields(c);
  }

  /**
   * The content of the local rules always renders once the probability can
   * be read: every list slot is that list's rendering, and the comment slot
   * is empty whatever the probability, since the local comment is "".
   * Stated for any content whose comment is empty, as `ContentOf`'s is.
   */
  lemma LocalContentRenders(data: Value, c: Content.Content, summary: string, imagePath: string,
                            timestamp: string, showScore: real -> string)
    requires Report.Probability(data).Ok? && c.attractivenessComment == ""
    ensures var p := Report.Probability(data).value;
      Report.RenderSlots(data, summary, Content.ToValue(c), imagePath, timestamp, showScore)
      == Ok(Report.Slots(timestamp, imagePath, summary,
                         Report.FormatListItems(c.skincare), Report.FormatListItems(c.grooming),
                         if p <= Report.Threshold then "hidden" else "", showScore(p * 10.0), "",
                         Report.FormatListItems(c.positives), Report.FormatListItems(c.improve),
                         Report.FormatListItems(c.observations)))
  {
    LocalLists(c);
    LocalComment(c, Report.Probability(data).value);
  }

  lemma ReportOfSlots(data: Value, summary: string, content: Value, imagePath: string,
                      timestamp: string, showScore: real -> string, slots: Report.Slots)
    requires Report.RenderSlots(data, summary, content, imagePath, timestamp, showScore) == Ok(slots)
    ensures GenerateHtmlReport(data, summary, content, imagePath, timestamp, showScore) == Ok(Report.Document(slots))
  {
  }

  /**
   * A dict record without `attractive` and its local content `c`, which is
   * what `GenerateContent` returns with the remote model off, yield a report
   * with any summary text: the attractiveness section is hidden, the score
   * is that of 0 and there is no comment.
   */
  lemma OfflineReport(m: map<string, Value>, c: Content.Content, summary: string, imagePath: string, timestamp: string, showScore: real -> string)
    requires "attractive" !in m && c == Content.ContentOf(m)
    ensures GenerateHtmlReport(Obj(m), summary, Content.ToValue(c), imagePath, timestamp, showScore)
         == Ok(Report.Document(Report.Slots(timestamp, imagePath, summary,
                 Report.FormatListItems(c.skincare), Report.FormatListItems(c.grooming),
                 "hidden", showScore(0.0), "",
                 Report.FormatListItems(c.positives), Report.FormatListItems(c.improve),
                 Report.FormatListItems(c.observations))))
  {
    assert Report.Probability(Obj(m)) == Ok(0.0);
    LocalContentRenders(Obj(m), c, summary, imagePath, timestamp, showScore);
    var slots := Report.Slots(timestamp, imagePath, summary,
      Report.FormatListItems(c.skincare), Report.FormatListItems(c.grooming),
      "hidden", showScore(0.0), "",
      Report.FormatListItems(c.positives), Report.FormatListItems(c.improve),
      Report.FormatListItems(c.observations));
    ReportOfSlots(Obj(m), summary, Content.ToValue(c), imagePath, timestamp, showScore, slots);
  }

  /**
   * A reply holding a dict inside the usual "```json" fence is parsed from
   * its body, and the dict comes back with the missing keys filled in.
   */
  lemma RemoteFenced(body: string, parse: string -> Option<Value>, fields: map<string, Value>)
    requires parse(Strip(body)) == Some(Obj(fields))
    ensures RemoteContent(Fence.JsonFence + "\n" + body + "\n" + Fence.Fence, parse)
      == Ok(Obj(Completion.FillMissing(fields, Completion.RequiredKeys)))
  {
    var reply := Fence.JsonFence + "\n" + body + "\n" + Fence.Fence;
    Fence.CleanStripped(reply);
    Fence.CleanJsonFenceLines(body);
    assert Fence.CleanJsonResponse(Strip(reply)) == Strip(body);
  }
}

=== FILE: json.dfy ===
/**
 * The Python values the report generator works on, restricted to what
 * `json.loads` can produce: None, booleans, numbers, strings, lists and dicts.
 */
module Json {
  import opened Results

  datatype Value =
    | Null
    | Bool(b: bool)
    | Num(x: real)
    | Str(s: string)
    | Arr(items: seq<Value>)
    | Obj(fields: map<string, Value>)

  /**
   * The exceptions the modelled code can raise, with the operation that
   * raised them. `Unmodelled` marks a value whose text the model does not
   * reproduce (see `Display`); it is not a Python exception.
   */
  datatype Exception =
    | AttributeError(what: string)
    | TypeError(what: string)
    | ValueError(what: string)
    | RuntimeError(cause: Exception)
    | Unmodelled(what: string)

  /** Python's truthiness `bool(v)`. */
  predicate Truthy(v: Value) {
    match v
    case Null => false
    case Bool(b) => b
    case Num(x) => x != 0.0
    case Str(s) => s != ""
    case Arr(items) => items != []
    case Obj(fields) => fields != map[]
  }

  /** `d.get(k, default)` on a dict. */
  function Get(fields: map<string, Value>, k: string, default: Value): Value {
    if k in fields then fields[k] else default
  }

  /**
   * `str(v)` for the shapes whose text is fixed. The decimal text of a
   * number and the repr of a nested list or dict are not modelled (`None`).
   */
  function Display(v: Value): Option<string> {
    match v
    case Null => Some("None")
    case Bool(b) => Some(if b then "True" else "False")
    case Str(s) => Some(s)
    case _ => None
  }
}

=== FILE: report.dfy ===
/**
 * `format_list_items` and `generate_html_report`: the content is rendered into
 * one fixed HTML template with eleven placeholders. The attractiveness section
 * is shown, and its comment kept, only when the probability is above 0.7.
 */
module Report {
  import opened Results
  import opened Json
  import opened Text

  const Placeholder := "<li>No specific recommendations " + "at this time</li>"

  /** The items of a list that are not blank, each stripped, in input order. */
  function Kept(items: seq<string>): (r: seq<string>)
    ensures |r| <= |items|
    ensures forall t :: t in r ==> t != "" && IsStripped(t)
  {
    if items == [] then []
    else
      var t := Strip(items[0]);
      var rest := Kept(items[1..]);
      assert forall i :: 1 <= i < |items| ==> items[i] == items[1..][i - 1];
      (if t != "" then [t] else []) + rest
  }

  /** Every item that is not blank is kept, stripped. */
  lemma {:induction false} KeptComplete(items: seq<string>, i: nat)
    requires i < |items| && Strip(items[i]) != ""
    ensures Strip(items[i]) in Kept(items)
  {
    if i > 0 {
      assert items[i] == items[1..][i - 1];
      KeptComplete(items[1..], i - 1);
    }
  }

  function Item(t: string): string {
    "<li>" + t + "</li>"
  }

  function Items(ts: seq<string>): (r: seq<string>)
    ensures |r| == |ts| && forall i :: 0 <= i < |ts| ==> r[i] == Item(ts[i])
  {
    seq(|ts|, i requires 0 <= i < |ts| => Item(ts[i]))
  }

  /** `format_list_items(items)`. */
  function FormatListItems(items: seq<string>): (r: string)
    ensures r != ""
    ensures StartsWith(r, "<li>") && EndsWith(r, "</li>")
    ensures Kept(items) == [] ==> r == Placeholder
    ensures Kept(items) != [] ==> r == Join("\n", Items(Kept(items)))
  {
    if items == [] then Placeholder
    else
      var kept := Kept(items);
      if kept == [] then Placeholder
      else
        ItemsFrame(kept);
        Join("\n", Items(kept))
  }

  /** A non-empty run of list items starts with "<li>" and ends with "</li>". */
  lemma ItemsFrame(ts: seq<string>)
    requires ts != []
    ensures var j := Join("\n", Items(ts)); StartsWith(j, "<li>") && EndsWith(j, "</li>")
  {
    var its := Items(ts);
    var first, last := its[0], its[|its| - 1];
    assert StartsWith(first, "<li>") && EndsWith(first, "</li>") by {
      assert first == "<li>" + ts[0] + "</li>";
    }
    assert StartsWith(last, "<li>") && EndsWith(last, "</li>") by {
      assert last == "<li>" + ts[|ts| - 1] + "</li>";
    }
    Framed(Join("\n", its), first, last, "<li>", "</li>");
  }

  /** Keeping items distributes over concatenation: order is preserved. */
  lemma {:induction false} KeptSplit(xs: seq<string>, ys: seq<string>)
    ensures Kept(xs + ys) == Kept(xs) + Kept(ys)
  {
    if xs == [] {
      assert xs + ys == ys;
    } else {
      assert (xs + ys)[1..] == xs[1..] + ys;
      KeptSplit(xs[1..], ys);
    }
  }

  /** A blank item anywhere in the list does not change the rendering. */
  lemma BlankIgnored(xs: seq<string>, b: string, ys: seq<string>)
    requires Strip(b) == ""
    ensures FormatListItems(xs + [b] + ys) == FormatListItems(xs + ys)
  {
    BlankNotKept(xs, b, ys);
    SameKeptSameOutput(xs + [b] + ys, xs + ys);
  }

  lemma {:induction false} BlankNotKept(xs: seq<string>, b: string, ys: seq<string>)
    requires Strip(b) == ""
    ensures Kept(xs + [b] + ys) == Kept(xs + ys)
  {
    if xs == [] {
      assert xs + [b] + ys == [b] + ys && ([b] + ys)[1..] == ys;
      assert xs + ys == ys;
    } else {
      assert (xs + [b] + ys)[0] == xs[0] && (xs + [b] + ys)[1..] == xs[1..] + [b] + ys;
      assert (xs + ys)[0] == xs[0] && (xs + ys)[1..] == xs[1..] + ys;
      BlankNotKept(xs[1..], b, ys);
    }
  }

  /** The rendering depends only on the kept items. */
  lemma SameKeptSameOutput(xs: seq<string>, ys: seq<string>)
    requires Kept(xs) == Kept(ys)
    ensures FormatListItems(xs) == FormatListItems(ys)
  {
  }

  /** Items that are already stripped and non-blank each become one list item, in order. */
  lemma {:induction false} CleanItemsKept(items: seq<string>)
    requires forall i :: 0 <= i < |items| ==> items[i] != "" && IsStripped(items[i])
    ensures Kept(items) == items
  {
    if items != [] {
      StrippedFixed(items[0]);
      CleanItemsKept(items[1..]);
    }
  }

  lemma CleanItemsRendered(items: seq<string>)
    requires items != []
    requires forall i :: 0 <= i < |items| ==> items[i] != "" && IsStripped(items[i])
    ensures FormatListItems(items) == Join("\n", Items(items))
  {
    CleanItemsKept(items);
  }

  /**
   * The items `format_list_items` iterates over, given the value stored in
   * the content dict. A falsy value renders the placeholder; a number or
   * True has no `len()`; a string is iterated character by character.
   */
  function ListItems(v: Value): (r: Result<seq<string>, Exception>)
    ensures !Truthy(v) ==> r == Ok([])
    ensures v.Str? ==> r.Ok? && |r.value| == |v.s|
    ensures v.Str? ==> forall i :: 0 <= i < |v.s| ==> r.value[i] == [v.s[i]]
    ensures v.Arr? && r.Ok? ==> |r.value| == |v.items|
    ensures v.Arr? && r.Ok? ==> forall i :: 0 <= i < |v.items| ==> Display(v.items[i]) == Some(r.value[i])
    ensures v.Arr? && (forall i :: 0 <= i < |v.items| ==> v.items[i].Str?) ==> r.Ok?
    ensures (v.Num? || v.Bool?) && Truthy(v) ==> r.Err?
  {
    if !Truthy(v) then Ok([])
    else
      match v
      case Str(s) => Ok(Chars(s))
      case Arr(items) => DisplayAll(items)
      case Obj(_) => Err(Unmodelled("iteration over the keys of a dict"))
      case _ => Err(TypeError("object has no len()"))
  }

  /** The one-character strings of `s`, in order: iterating a Python string. */
  function Chars(s: string): (r: seq<string>)
    ensures |r| == |s| && forall i :: 0 <= i < |s| ==> r[i] == [s[i]]
  {
    if s == [] then [] else [[s[0]]] + Chars(s[1..])
  }

  /** `str(item)` for every item of a list. */
  function DisplayAll(items: seq<Value>): (r: Result<seq<string>, Exception>)
    ensures r.Ok? ==> |r.value| == |items|
    ensures r.Ok? ==> forall i :: 0 <= i < |items| ==> Display(items[i]) == Some(r.value[i])
    ensures (forall i :: 0 <= i < |items| ==> items[i].Str?) ==> r.Ok?
  {
    if items == [] then Ok([])
    else
      match Display(items[0])
      case None => Err(Unmodelled("str() of a list item"))
      case Some(t) =>
        var rest :- DisplayAll(items[1..]);
        Ok([t] + rest)
  }

  /**
   * `data.get("attractive", {}).get("probability", 0)`, as a number the
   * threshold can compare: a bool compares as 0 or 1, anything else raises.
   */
  function Probability(data: Value): (r: Result<real, Exception>)
    ensures data.Obj? && "attractive" !in data.fields ==> r == Ok(0.0)
    ensures data.Obj? && "attractive" in data.fields && !data.fields["attractive"].Obj? ==> r.Err?
    ensures !data.Obj? ==> r.Err?
    ensures data.Obj? && "attractive" in data.fields && data.fields["attractive"].Obj? ==>
      var f := data.fields["attractive"].fields;
      && ("probability" !in f ==> r == Ok(0.0))
      && ("probability" in f && f["probability"].Num? ==> r == Ok(f["probability"].x))
      && ("probability" in f && f["probability"].Bool? ==> r == Ok(if f["probability"].b then 1.0 else 0.0))
      && ("probability" in f && !f["probability"].Num? && !f["probability"].Bool? ==> r.Err?)
  {
    match data
    case Obj(m) =>
      (match Get(m, "attractive", Obj(map[]))
       case Obj(f) =>
         (match Get(f, "probability", Num(0.0))
          case Num(x) => Ok(x)
          case Bool(b) => Ok(if b then 1.0 else 0.0)
          case _ => Err(TypeError("'<=' not supported")))
       case _ => Err(AttributeError("get")))
    case _ => Err(AttributeError("get"))
  }

  /** A list key the content lacks renders as the placeholder. */
  lemma MissingListPlaceholder(fields: map<string, Value>, key: string)
    requires key !in fields
    ensures FormatField(fields, key) == Ok(Placeholder)
  {
  }

  const Threshold: real := 0.7

  /** The eleven values substituted into the template, in template order. */
  datatype Slots = Slots(
    timestamp: string,
    imagePath: string,
    summary: string,
    skincare: string,
    grooming: string,
    attractivenessClass: string,
    score: string,
    comment: string,
    positives: string,
    improve: string,
    observations: string)

  function FormatField(fields: map<string, Value>, key: string): Result<string, Exception> {
    var items :- ListItems(Get(fields, key, Arr([])));
    Ok(FormatListItems(items))
  }

  /** The comment slot: the content's comment above the threshold, "" otherwise. */
  function CommentSlot(p: real, fields: map<string, Value>): (r: Result<string, Exception>)
    ensures p <= Threshold ==> r == Ok("")
    ensures p > Threshold && r.Ok? ==> Display(Get(fields, "attractiveness_comment", Str(""))) == Some(r.value)
    ensures p > Threshold && Display(Get(fields, "attractiveness_comment", Str(""))).Some? ==> r.Ok?
    ensures p > Threshold && "attractiveness_comment" !in fields ==> r == Ok("")
  {
    if p > Threshold then
      match Display(Get(fields, "attractiveness_comment", Str("")))
      case Some(t) => Ok(t)
      case None => Err(Unmodelled("str() of the comment"))
    else Ok("")
  }

  /** The five rendered lists, in the order `Gemini.py` formats them. */
  datatype Lists = Lists(skincare: string, grooming: string, positives: string, improve: string, observations: string)

  function FormatLists(fields: map<string, Value>): Result<Lists, Exception> {
    var skincare :- FormatField(fields, "skincare_list");
    var grooming :- FormatField(fields, "grooming_list");
    var positives :- FormatField(fields, "positive_features_list");
    var improve :- FormatField(fields, "features_to_improve_list");
    var observations :- FormatField(fields, "other_observations_list");
    Ok(Lists(skincare, grooming, positives, improve, observations))
  }

  /**
   * Everything `generate_html_report` computes before filling the template,
   * failing at the first exception in the evaluation order of `Gemini.py`.
   * `showScore` stands for `round(x, 2)` followed by `str()`.
   */
  function RenderSlots(data: Value, summary: string, content: Value, imagePath: string,
                       timestamp: string, showScore: real -> string): (r: Result<Slots, Exception>)
    ensures r.Ok? ==> Probability(data).Ok? && content.Obj?
    ensures r.Ok? ==> (r.value.attractivenessClass == "hidden" <==> Probability(data).value <= Threshold)
    ensures r.Ok? ==> (r.value.attractivenessClass == "" <==> Probability(data).value > Threshold)
    ensures r.Ok? && Probability(data).value <= Threshold ==> r.value.comment == ""
    ensures r.Ok? && Probability(data).value > Threshold ==>
      Display(Get(content.fields, "attractiveness_comment", Str(""))) == Some(r.value.comment)
    ensures r.Ok? ==> r.value.score == showScore(Probability(data).value * 10.0)
    ensures r.Ok? ==> r.value.timestamp == timestamp && r.value.imagePath == imagePath && r.value.summary == summary
    ensures Probability(data).Err? ==> r == Err(Probability(data).error)
    ensures r.Ok? ==>
      FormatLists(content.fields)
      == Ok(Lists(r.value.skincare, r.value.grooming, r.value.positives, r.value.improve, r.value.observations))
    ensures (Probability(data).Ok? && content.Obj? && FormatLists(content.fields).Ok?
             && CommentSlot(Probability(data).value, content.fields).Ok?) ==> r.Ok?
  {
    var p :- Probability(data);
    var fields :- if content.Obj? then Ok(content.fields) else Err(AttributeError("get"));
    var lists :- FormatLists(fields);
    var comment :- CommentSlot(p, fields);
    Ok(Slots(timestamp, imagePath, summary, lists.skincare, lists.grooming,
             if p <= Threshold then "hidden" else "",
             showScore(p * 10.0), comment, lists.positives, lists.improve, lists.observations))
  }

  /** The template's fixed text around and between the placeholders. */
  const Head := "<head>\n    <meta charset=\"UTF-8\">\n"
    + "    <meta name=\"viewport\" content=\"width=device-width, initial-scale=1.0\">\n"
    + "    <title>Facial Analysis Report</title>\n"
    + "    <style></style>\n</head>"

  const Segments: seq<string> := [
    "\n<!DOCTYPE html>\n<html lang=\"en\">\n" + Head + "\n<body>\n    <div class=\"container\">\n"
      + "        <header>\n            <h1>Facial Feature & Grooming Analysis</h1>\n"
      + "            <div class=\"timestamp\">Generated: ",
    "</div>\n        </header>\n        \n        <div class=\"image-container\">\n            <img src=\"",
    "\" alt=\"Subject Image\">\n        </div>\n\n        <section id=\"summary\">\n"
      + "            <h2><span class=\"emoji\">\U{1F4CB}</span> Executive Summary</h2>\n            <p>",
    "</p>\n        </section>\n\n        <section id=\"skincare\">\n"
      + "            <h2><span class=\"emoji\">\U{1F9F4}</span> Skincare Insights</h2>\n            <ul>",
    "</ul>\n        </section>\n\n        <section id=\"grooming\">\n"
      + "            <h2><span class=\"emoji\">\U{1F488}</span> Grooming & Hair Insights</h2>\n            <ul>",
    "</ul>\n        </section>\n\n        <section id=\"attractiveness\" class=\"",
    "\">\n            <h2><span class=\"emoji\">\U{1F31F}</span> Attractiveness Analysis</h2>\n"
      + "            <div class=\"score-badge\">Score: ",
    "/10</div>\n            <p>",
    "</p>\n        </section>\n\n        <section id=\"good_features\">\n"
      + "            <h2><span class=\"emoji\">\U{1F44D}</span> Standout Features</h2>\n            <ul>",
    "</ul>\n        </section>\n\n        <section id=\"bad_features\">\n"
      + "            <h2><span class=\"emoji\">\U{26A0}\U{FE0F}</span> Areas for Enhancement</h2>\n            <ul>",
    "</ul>\n        </section>\n\n        <section id=\"neutral_features\">\n"
      + "            <h2><span class=\"emoji\">\U{2139}\U{FE0F}</span> Additional Observations</h2>\n            <ul>",
    "</ul>\n        </section>\n        \n        <div class=\"footer\">\n"
      + "            <p>This report is generated using AI analysis and is for informational purposes only.</p>\n"
      + "        </div>\n    </div>\n</body>\n</html>\n"
  ]

  function SlotValues(s: Slots): (r: seq<string>)
    ensures |r| == 11
  {
    [s.timestamp, s.imagePath, s.summary, s.skincare, s.grooming, s.attractivenessClass,
     s.score, s.comment, s.positives, s.improve, s.observations]
  }

  /** `lits[0] + vals[0] + lits[1] + ... + vals[n-1] + lits[n]`. */
  function Interleave(lits: seq<string>, vals: seq<string>): string
    requires |lits| == |vals| + 1
    decreases |vals|
  {
    if vals == [] then lits[0] else lits[0] + vals[0] + Interleave(lits[1..], vals[1..])
  }

  /** The filled template: `ENHANCED_HTML_TEMPLATE.format(...)`. */
  function Document(s: Slots): (r: string)
    ensures StartsWith(r, Segments[0]) && EndsWith(r, Segments[|Segments| - 1])
  {
    InterleaveFrame(Segments, SlotValues(s));
    Interleave(Segments, SlotValues(s))
  }

  /** The k-th value sits between the k-th and the (k+1)-th literal segment, verbatim. */
  lemma {:induction false} InterleaveAt(lits: seq<string>, vals: seq<string>, k: nat)
    requires |lits| == |vals| + 1 && k < |vals|
    ensures Interleave(lits, vals)
      == Interleave(lits[..k + 1], vals[..k]) + vals[k] + Interleave(lits[k + 1..], vals[k + 1..])
    decreases k
  {
    if k == 0 {
      assert lits[..1] == [lits[0]] && vals[..0] == [];
    } else {
      InterleaveAt(lits[1..], vals[1..], k - 1);
      assert lits[1..][..k] == lits[1..k + 1];
      assert vals[1..][..k - 1] == vals[1..k];
      assert lits[1..][k..] == lits[k + 1..];
      assert vals[1..][k..] == vals[k + 1..];
      assert lits[..k + 1][1..] == lits[1..k + 1];
      assert vals[..k][1..] == vals[1..k];
    }
  }

  lemma {:induction false} InterleaveFrame(lits: seq<string>, vals: seq<string>)
    requires |lits| == |vals| + 1
    ensures StartsWith(Interleave(lits, vals), lits[0])
    ensures EndsWith(Interleave(lits, vals), lits[|lits| - 1])
    decreases |vals|
  {
    if vals != [] {
      InterleaveFrame(lits[1..], vals[1..]);
      var rest := Interleave(lits[1..], vals[1..]);
      var whole := lits[0] + vals[0] + rest;
      assert whole[..|lits[0]|] == lits[0];
      assert whole[|whole| - |lits[|lits| - 1]|..] == rest[|rest| - |lits[|lits| - 1]|..];
    }
  }

  /**
   * Every placeholder is replaced by its value exactly where the template
   * has it: the document is a prefix ending in the literal text before the
   * placeholder, the value, and a suffix starting with the literal text after it.
   */
  lemma DocumentSlot(s: Slots, k: nat)
    requires k < 11
    ensures var vals := SlotValues(s);
      var before := Interleave(Segments[..k + 1], vals[..k]);
      var after := Interleave(Segments[k + 1..], vals[k + 1..]);
      Document(s) == before + vals[k] + after
      && EndsWith(before, Segments[k]) && StartsWith(after, Segments[k + 1])
  {
    var vals := SlotValues(s);
    InterleaveAt(Segments, vals, k);
    InterleaveFrame(Segments[..k + 1], vals[..k]);
    InterleaveFrame(Segments[k + 1..], vals[k + 1..]);
  }
}

=== FILE: results.dfy ===
/** Optional values and results with an error, as used across the model. */
module Results {

  datatype Option<+T> = None | Some(value: T)

  /**
   * `Ok` is a normal return; `Err` carries the cause of the exception the
   * source raises. Usable with `:-`, which stops at the first `Err`.
   */
  datatype Result<+T, +E> = Ok(value: T) | Err(error: E) {

    predicate IsFailure() {
      Err?
    }

    function PropagateFailure<U>(): Result<U, E>
      requires Err?
    {
      Err(error)
    }

    function Extract(): T
      requires Ok?
    {
      value
    }
  }
}

=== FILE: summary.dfy ===
/**
 * `_local_summary`: the one-sentence summary built without the remote model,
 * from a fixed list of descriptor checks followed by two advisory checks.
 */
module Summary {
  import opened Json
  import opened Text
  import opened Attributes

  const Generic := "Your image has been analyzed " + "for key facial attributes."
  /** Returned by the exception handler, i.e. when the record is not a dict. */
  const Fallback := "Your facial attributes have " + "been analyzed and summarized."

  /** Descriptor checks after the gender one, in the order they run. */
  const FeatureRules: seq<Rule> := [
    Rule("attractive", "attractive features"),
    Rule("sharp_jawline", "a defined jawline"),
    Rule("high_cheekbones", "high cheekbones"),
    Rule("big_eyes", "expressive eyes"),
    Rule("sharp_nose", "a sharp nose"),
    Rule("well_groomed", "well-groomed appearance")
  ]

  /** Advisory checks, in the order they run. */
  const AdvisoryRules: seq<Rule> := [
    Rule("oily_skin", "Consider oil-control " + "skincare for balance."),
    Rule("curly_hair", "Curl-enhancing care " + "can improve definition.")
  ]

  /** The descriptor sentences are pairwise distinct and differ from the gender words. */
  lemma FeatureTable()
    ensures DistinctTexts(FeatureRules)
    ensures forall i :: 0 <= i < |FeatureRules| ==> FeatureRules[i].text != "male" && FeatureRules[i].text != "female"
  {
  }

  /** "male" when `male` is True, "female" when it is False, nothing otherwise. */
  function Gender(m: Record): seq<string> {
    if SummaryValue(m, "male") == Bool(true) then ["male"]
    else if SummaryValue(m, "male") == Bool(false) then ["female"]
    else []
  }

  function Features(m: Record): seq<string> {
    Fired(m, ExactTrue, FeatureRules)
  }

  /** The `attrs` list. */
  function Descriptors(m: Record): (r: seq<string>)
    ensures |r| <= 1 + |FeatureRules|
    ensures "male" in r <==> SummaryValue(m, "male") == Bool(true)
    ensures "female" in r <==> SummaryValue(m, "male") == Bool(false)
    ensures forall i :: 0 <= i < |FeatureRules| ==> (FeatureRules[i].text in r <==> IsTrue(m, FeatureRules[i].key))
  {
    FeatureTable();
    var f := Features(m);
    assert forall i :: 0 <= i < |FeatureRules| ==> (FeatureRules[i].text in f <==> IsTrue(m, FeatureRules[i].key)) by {
      forall i | 0 <= i < |FeatureRules|
        ensures FeatureRules[i].text in f <==> IsTrue(m, FeatureRules[i].key)
      {
        FiredExactly(m, ExactTrue, FeatureRules, i);
      }
    }
    FiredOnlyOn(m, ExactTrue, FeatureRules, "male");
    FiredOnlyOn(m, ExactTrue, FeatureRules, "female");
    Gender(m) + f
  }

  function Advisories(m: Record): seq<string> {
    Fired(m, ExactTrue, AdvisoryRules)
  }

  /**
   * `", ".join(attrs[:-1]) + (" and " + attrs[-1] if attrs else "")`.
   * With a single descriptor the result keeps the leading " and ".
   */
  function JoinDescriptors(attrs: seq<string>): (r: string)
    ensures r == "" <==> attrs == []
    ensures |attrs| == 1 ==> r == " and " + attrs[0]
    ensures |attrs| == 2 ==> r == attrs[0] + " and " + attrs[1]
    ensures |attrs| == 3 ==> r == attrs[0] + ", " + attrs[1] + " and " + attrs[2]
  {
    if attrs == [] then ""
    else
      var init := attrs[..|attrs| - 1];
      assert |attrs| == 3 ==> Join(", ", init) == init[0] + ", " + Join(", ", init[1..]);
      Join(", ", init) + " and " + attrs[|attrs| - 1]
  }

  /** From three descriptors on, each one but the last two is followed by ", ". */
  lemma {:induction false} JoinDescriptorsStep(attrs: seq<string>)
    requires |attrs| >= 3
    ensures JoinDescriptors(attrs) == attrs[0] + ", " + JoinDescriptors(attrs[1..])
  {
    var n, t := |attrs|, attrs[1..];
    var init, tail := attrs[..n - 1], Join(", ", t[..n - 2]);
    assert init[1..] == t[..n - 2] && t[n - 2] == attrs[n - 1];
    assert Join(", ", init) == attrs[0] + ", " + tail;
    assert JoinDescriptors(t) == tail + " and " + attrs[n - 1];
  }

  /** The descriptive sentence, or the generic one when no descriptor fired. */
  function Core(m: Record): (r: string)
    ensures r != [] && IsStripped(r)
    ensures r == Generic <==> Descriptors(m) == []
    ensures Descriptors(m) != [] ==> StartsWith(r, "You appear ") && EndsWith(r, ".")
    ensures Descriptors(m) != [] ==> r == "You appear " + JoinDescriptors(Descriptors(m)) + "."
  {
    var bits := JoinDescriptors(Descriptors(m));
    SentenceEnds();
    if bits != "" then
      var c := "You appear " + bits + ".";
      assert c[0] == 'Y' && c[|c| - 1] == '.' && c[3] == ' ';
      assert c[..11] == "You appear " && c[|c| - 1..] == ".";
      c
    else Generic
  }

  function SummaryOf(m: Record): (r: string)
    ensures IsStripped(r)
  {
    Strip(Core(m) + " " + Join(" ", Advisories(m)))
  }

  /** `_local_summary(data)`. */
  function LocalSummary(data: Value): (r: string)
    ensures IsStripped(r) && r != ""
    ensures !data.Obj? ==> r == Fallback
    ensures data.Obj? ==> r == SummaryOf(data.fields)
  {
    match data
    case Obj(m) => SummaryShape(m); SummaryOf(m)
    case _ => Fallback
  }

  /**
   * The sentences begin with a capital letter and end with a full stop.
   * The longer sentences are written as two literals; a short literal is
   * one the verifier unfolds character by character, which these facts need.
   */
  lemma SentenceEnds()
    ensures Generic[0] == 'Y' && Generic[|Generic| - 1] == '.' && Generic[3] == 'r'
    ensures AdvisoryRules[0].text[0] == 'C' && AdvisoryRules[0].text[|AdvisoryRules[0].text| - 1] == '.'
    ensures AdvisoryRules[1].text[0] == 'C' && AdvisoryRules[1].text[|AdvisoryRules[1].text| - 1] == '.'
    ensures !IsSpace('Y') && !IsSpace('C') && !IsSpace('.')
  {
  }

  lemma AdvisoryTail(m: Record)
    ensures Advisories(m) != [] ==> Join(" ", Advisories(m)) != [] && IsStripped(Join(" ", Advisories(m)))
  {
    var t0, t1 := AdvisoryRules[0].text, AdvisoryRules[1].text;
    FiredTwo(m, ExactTrue, AdvisoryRules[0], AdvisoryRules[1]);
    SentenceEnds();
    var a := Advisories(m);
    if |a| == 2 {
      var j := t0 + " " + t1;
      assert Join(" ", a) == j;
      assert j[0] == 'C' && j[|j| - 1] == '.';
    }
  }

  /**
   * The summary is the core sentence, followed by the advisory sentences
   * (oily skin first, then curly hair) after one space when any fired.
   */
  lemma SummaryShape(m: Record)
    ensures var tail := Join(" ", Advisories(m));
      SummaryOf(m) == if Advisories(m) == [] then Core(m) else Core(m) + " " + tail
  {
    var core, tail := Core(m), Join(" ", Advisories(m));
    AdvisoryTail(m);
    if Advisories(m) == [] {
      assert core + " " + tail == [] + core + " ";
      StripUnique([], core, " ");
    } else {
      var whole := core + " " + tail;
      assert whole[0] == core[0] && whole[|whole| - 1] == tail[|tail| - 1];
      StrippedFixed(whole);
    }
  }

  /** With no descriptor and no advisory, the summary is exactly the generic sentence. */
  lemma SummaryFallback(m: Record)
    requires SummaryValue(m, "male") != Bool(true) && SummaryValue(m, "male") != Bool(false)
    requires forall i :: 0 <= i < |FeatureRules| ==> !IsTrue(m, FeatureRules[i].key)
    requires forall i :: 0 <= i < |AdvisoryRules| ==> !IsTrue(m, AdvisoryRules[i].key)
    ensures LocalSummary(Obj(m)) == Generic
  {
    FiredNone(m, ExactTrue, FeatureRules);
    FiredNone(m, ExactTrue, AdvisoryRules);
    SummaryShape(m);
  }

  /** Descriptors keep their declared order: gender, then earlier checks before later ones. */
  lemma DescriptorOrder(m: Record, k: nat)
    requires k <= |FeatureRules|
    ensures Descriptors(m) == Gender(m) + Fired(m, ExactTrue, FeatureRules[..k]) + Fired(m, ExactTrue, FeatureRules[k..])
  {
    assert FeatureRules == FeatureRules[..k] + FeatureRules[k..];
    FiredSplit(m, ExactTrue, FeatureRules[..k], FeatureRules[k..]);
  }

  /** A single descriptor keeps the leading " and " of `Gemini.py`, giving a double space. */
  lemma SingleDescriptor(m: Record)
    requires |Descriptors(m)| == 1
    ensures Core(m) == "You appear  and " + Descriptors(m)[0] + "."
  {
    var d := Descriptors(m);
    var bits := JoinDescriptors(d);
    assert bits == " and " + d[0];
    LiteralJoin(d[0]);
  }

  lemma LiteralJoin(x: string)
    ensures "You appear " + (" and " + x) + "." == "You appear  and " + x + "."
  {
    assert "You appear " + " and " == "You appear  and ";
  }

  /**
   * A record whose only descriptor is `male: True`, with no advisory, is
   * summarised as "You appear  and male." (double space included).
   */
  lemma MaleOnly(m: Record)
    requires SummaryValue(m, "male") == Bool(true)
    requires forall i :: 0 <= i < |FeatureRules| ==> !IsTrue(m, FeatureRules[i].key)
    requires forall i :: 0 <= i < |AdvisoryRules| ==> !IsTrue(m, AdvisoryRules[i].key)
    ensures LocalSummary(Obj(m)) == "You appear  and male."
  {
    assert Descriptors(m) == ["male"] && Advisories(m) == [] by {
      FiredNone(m, ExactTrue, FeatureRules);
      FiredNone(m, ExactTrue, AdvisoryRules);
    }
    assert Core(m) == "You appear  and male." by {
      SingleDescriptor(m);
      assert "You appear  and " + "male" + "." == "You appear  and male.";
    }
    assert SummaryOf(m) == Core(m) by {
      SummaryShape(m);
    }
  }
}

=== FILE: text.dfy ===
/**
 * String helpers with Python's meaning: `str.strip()`, `str.join`,
 * `str.startswith` and `str.endswith`.
 */
module Text {

  /** The characters outside U+2000..U+200A for which Python's `str.isspace()` holds. */
  const SpaceChars: set<char> := {
    ' ', '\t', '\n', '\r', '\U{0B}', '\U{0C}', '\U{1C}', '\U{1D}', '\U{1E}', '\U{1F}',
    '\U{85}', '\U{A0}', '\U{1680}', '\U{2028}', '\U{2029}', '\U{202F}', '\U{205F}', '\U{3000}'
  }

  /** Python's `c.isspace()`. */
  predicate IsSpace(c: char) {
    c in SpaceChars || ('\U{2000}' <= c <= '\U{200A}')
  }

  predicate AllSpace(s: string) {
    forall i :: 0 <= i < |s| ==> IsSpace(s[i])
  }

  /** No whitespace at either end: what `strip()` leaves behind. */
  predicate IsStripped(s: string) {
    s == [] || (!IsSpace(s[0]) && !IsSpace(s[|s| - 1]))
  }

  predicate StartsWith(s: string, prefix: string) {
    |prefix| <= |s| && s[..|prefix|] == prefix
  }

  predicate EndsWith(s: string, suffix: string) {
    |suffix| <= |s| && s[|s| - |suffix|..] == suffix
  }

  /** `s.lstrip()`. */
  function TrimLeft(s: string): (r: string)
    ensures |r| <= |s|
    ensures r == [] || !IsSpace(r[0])
  {
    if s != [] && IsSpace(s[0]) then TrimLeft(s[1..]) else s
  }

  /** `s.rstrip()`: a prefix of `s`. */
  function TrimRight(s: string): (r: string)
    ensures |r| <= |s| && r == s[..|r|]
    ensures r == [] || !IsSpace(r[|r| - 1])
  {
    if s != [] && IsSpace(s[|s| - 1]) then TrimRight(s[..|s| - 1]) else s
  }

  /** `s.strip()`. */
  function Strip(s: string): (r: string)
    ensures IsStripped(r)
    ensures |r| <= |s|
  {
    TrimRight(TrimLeft(s))
  }

  /** What `lstrip()` drops is whitespace, and what it keeps is the rest of `s`. */
  lemma {:induction false} TrimLeftSplit(s: string)
    ensures var k := |s| - |TrimLeft(s)|; s == s[..k] + TrimLeft(s) && AllSpace(s[..k])
  {
    if s != [] && IsSpace(s[0]) {
      TrimLeftSplit(s[1..]);
      var k := |s| - |TrimLeft(s)|;
      assert s[..k] == [s[0]] + s[1..][..k - 1];
    }
  }

  /** What `rstrip()` drops is whitespace. */
  lemma {:induction false} TrimRightSplit(s: string)
    ensures var r := TrimRight(s); s == r + s[|r|..] && AllSpace(s[|r|..])
  {
    if s != [] && IsSpace(s[|s| - 1]) {
      var p := s[..|s| - 1];
      TrimRightSplit(p);
      var r := TrimRight(s);
      assert s[|r|..] == p[|r|..] + [s[|s| - 1]];
    }
  }

  /** Length of the leading whitespace of `s`. */
  function LeadLength(s: string): nat {
    |s| - |TrimLeft(s)|
  }

  /** `s` is its stripped core with the two whitespace margins around it. */
  lemma StripSplit(s: string)
    ensures var i, t := LeadLength(s), Strip(s);
      i + |t| <= |s| && s == s[..i] + t + s[i + |t|..] && AllSpace(s[..i]) && AllSpace(s[i + |t|..])
  {
    var l := TrimLeft(s);
    var i, t := LeadLength(s), Strip(s);
    TrimLeftSplit(s);
    TrimRightSplit(l);
    Pieces(s, s[..i], l, t, l[|t|..]);
  }

  lemma Pieces(s: string, p: string, l: string, t: string, q: string)
    requires s == p + l && l == t + q
    ensures s[|p| + |t|..] == q && s == p + t + q
  {
    assert s == p + t + q;
  }

  /** `sep.join(parts)`: the parts in order, with `sep` between neighbours and nowhere else. */
  function Join(sep: string, parts: seq<string>): (r: string)
    ensures parts == [] ==> r == ""
    ensures parts != [] ==> StartsWith(r, parts[0]) && EndsWith(r, parts[|parts| - 1])
  {
    if parts == [] then ""
    else if |parts| == 1 then parts[0]
    else
      var rest := Join(sep, parts[1..]);
      var r := parts[0] + sep + rest;
      assert r[..|parts[0]|] == parts[0];
      assert r[|r| - |parts[|parts| - 1]|..] == rest[|rest| - |parts[|parts| - 1]|..];
      r
  }

  /** A string framed by `a` ... `b` is framed by any prefix of `a` and any suffix of `b`. */
  lemma Framed(s: string, a: string, b: string, p: string, q: string)
    requires StartsWith(s, a) && EndsWith(s, b)
    requires StartsWith(a, p) && EndsWith(b, q)
    ensures StartsWith(s, p) && EndsWith(s, q)
  {
    assert s[..|p|] == s[..|a|][..|p|];
    assert s[|s| - |q|..] == s[|s| - |b|..][|b| - |q|..];
  }

  /** Cutting `i` characters from the front and then `j` from the back is one slice. */
  lemma SliceOfSlice(t: string, i: nat, j: nat)
    requires i + j <= |t|
    ensures t[i..][..|t| - i - j] == t[i..|t| - j]
    ensures t[i..][|t| - i - j..] == t[|t| - j..]
  {
  }

  /** Joining one more part appends the separator and that part. */
  lemma {:induction false} JoinSnoc(sep: string, parts: seq<string>, p: string)
    requires parts != []
    ensures Join(sep, parts + [p]) == Join(sep, parts) + sep + p
    decreases |parts|
  {
    if |parts| > 1 {
      JoinSnoc(sep, parts[1..], p);
      assert (parts + [p])[1..] == parts[1..] + [p];
    } else {
      assert (parts + [p])[1..] == [p];
    }
  }

  lemma {:induction false} TrimLeftOverSpace(a: string, u: string)
    requires AllSpace(a)
    requires u == [] || !IsSpace(u[0])
    ensures TrimLeft(a + u) == u
    decreases |a|
  {
    if a == [] {
      assert a + u == u;
    } else {
      assert (a + u)[1..] == a[1..] + u;
      TrimLeftOverSpace(a[1..], u);
    }
  }

  lemma {:induction false} TrimRightOverSpace(u: string, b: string)
    requires AllSpace(b)
    requires u == [] || !IsSpace(u[|u| - 1])
    ensures TrimRight(u + b) == u
    decreases |b|
  {
    if b == [] {
      assert u + b == u;
    } else {
      assert (u + b)[..|u + b| - 1] == u + b[..|b| - 1];
      TrimRightOverSpace(u, b[..|b| - 1]);
    }
  }

  /** `strip()` removes exactly the whitespace margins around a stripped core. */
  lemma {:induction false} StripUnique(a: string, t: string, b: string)
    requires AllSpace(a) && AllSpace(b) && IsStripped(t)
    ensures Strip(a + t + b) == t
  {
    if t == [] {
      assert a + t + b == (a + b) + [];
      TrimLeftOverSpace(a + b, []);
      assert TrimRight([]) == [];
    } else {
      assert a + t + b == a + (t + b);
      TrimLeftOverSpace(a, t + b);
      TrimRightOverSpace(t, b);
    }
  }

  /** A string that begins and ends with a visible character is left alone by `strip()`. */
  lemma StrippedFixed(t: string)
    requires IsStripped(t)
    ensures Strip(t) == t
  {
    assert [] + t + [] == t;
    StripUnique([], t, []);
  }

  /** `strip()` is idempotent. */
  lemma StripIdempotent(s: string)
    ensures Strip(Strip(s)) == Strip(s)
  {
    var t := Strip(s);
    assert [] + t + [] == t;
    StripUnique([], t, []);
  }

  lemma AllSpaceConcat(x: string, y: string)
    requires AllSpace(x) && AllSpace(y)
    ensures AllSpace(x + y)
  {
    forall k | 0 <= k < |x + y| ensures IsSpace((x + y)[k]) {
      if k < |x| { assert (x + y)[k] == x[k]; } else { assert (x + y)[k] == y[k - |x|]; }
    }
  }

  /** Whitespace added around a string does not change what `strip()` returns. */
  lemma {:induction false} StripPadded(a: string, s: string, b: string)
    requires AllSpace(a) && AllSpace(b)
    ensures Strip(a + s + b) == Strip(s)
  {
    var i, t := LeadLength(s), Strip(s);
    var lead, trail := s[..i], s[i + |t|..];
    StripSplit(s);
    AllSpaceConcat(a, lead);
    AllSpaceConcat(trail, b);
    Regroup(a, lead, t, trail, b);
    StripUnique(a + lead, t, trail + b);
  }

  /** Five pieces in a row, grouped three ways. */
  lemma Regroup(a: string, lead: string, t: string, trail: string, b: string)
    ensures a + (lead + t + trail) + b == (a + lead) + t + (trail + b)
    ensures a + lead + t + trail + b == a + (lead + t + trail) + b
  {
  }
}
